=== FILE: README.md ===
# Word search puzzle engine, modelled in Dafny

A model of the puzzle-building engine of the `word_search` class in
`word_search_st.py`. A puzzle is a square board of `n × n` cells that all
start as the blank marker `'.'`. Each word in the list is validated:

- a word longer than the board is rejected;
- a word that is not alphabetic is rejected; this includes the empty word.

An accepted word gets a direction: 0 is down, 1 is up, 2 is left to right.
The choice depends on whether some row, and some column, still holds a run
of blanks as long as the word. The word is then placed by a retry loop. The
loop draws a start cell, applies the direction's bound test and reads the
span the word would cover. It accepts the span when the span holds one
distinct value, or when some position already holds the word's letter
there. It then writes the upper-cased word along the span. Finally every
cell still blank receives a random letter `'A'..'Z'`.

The board is an immutable `seq<seq<char>>` and every step is a pure
function. The source's random draws are parameters:

- the 0..2 direction draw and the 0..1 column-direction draw;
- the sequence of start cells the retry loop draws;
- `pick(r, c)`, the letter code drawn for cell `(r, c)`.

Modules:

- `Options` (`options.dfy`): the `Option` type.
- `Grid` (`grid.dfy`): cells, ASCII letters, `Upper`, the board, `NewBoard`,
  and the invariant `Valid`: square, every cell blank or an upper-case letter.
- `Validation` (`validation.dfy`): blank runs in rows and columns, the
  `"." * k in s` scan, `_blank_columns`, `RejectionOf` (the two checks that
  reject a word), and `CheckWord`, the validation and direction choice for
  one word.
- `Placement` (`placement.dfy`): spans, bound tests, the acceptance rule, one
  attempt of the `_add_words` loop (`Attempt`), and the loop fed a finite
  sequence of drawn start cells (`PlaceWord`).
- `Filling` (`filling.dfy`): `fill_board`.
- `Puzzle` (`puzzle.dfy`): the `check_words` loop over the word list
  (`HandleWord`, `CheckWords`) and the whole run (`Generate`).

The unbounded `while True` of `_add_words` is modelled by feeding it a
finite sequence of draws. `PlaceWord` returns the board after the first
admitted draw, or `None` when no draw in the sequence is admitted; in that
case the source would still be looping. `SpinsIffNoAdmissibleStart` states
when no sequence of draws can end the loop. `CheckWords` reports a run that
reaches such a word as `Spinning`.

The bound tests are parameterised by `BoundRule`:

- `AsWritten` is the source's test, one cell stricter than the board needs;
- `Intended` admits exactly the spans that lie on the board (see Findings).

`InBoundsSpanOnBoard`, `Attempt`, `FirstAdmitted`, `PlaceWord`,
`BlankSpanAdmits`, `LowerCaseWordNeedsUniformSpan`,
`SpinsIffNoAdmissibleStart` and `OneWordOnFreshBoard` take the rule as a
parameter and are proved for both. The other bound lemmas are each about one
rule.

Two behaviours of the code worth noting:

- When neither a row nor a column has room, `check_words` writes "does not
  fit the remaining space" and still calls `_add_words` with the 0..2 draw
  (word_search_st.py:70-76). The model does the same: `CheckWord` returns
  `Place(dir, noSpace := true)`. `NoSpaceWordStillPlaced` shows such a word
  being written over a board that has no blank left.
- The acceptance rule compares the span with the word as given. Stored
  letters are upper case, so a lower-case word never matches a cell. It is
  then accepted only over a span that holds one repeated value
  (`LowerCaseWordNeedsUniformSpan`). Two lower-case words therefore never
  share a letter unless the shared span is uniform, and a span that repeats
  one letter is overwritten whatever that letter is (`UniformSpanAccepted`).

## Model

| member | source | states |
|---|---|---|
| `Grid.IsAlpha` | word_search_st.py:63 | `isalpha` on ASCII: the word has at least one character and every character is an ASCII letter, upper or lower case |
| `Grid.Upper` | word_search_st.py:124-125 | `l.upper()` on one character: a letter becomes upper case, a lower-case letter moves down by 32 code points, an upper-case letter or a non-letter is unchanged |
| `Grid.UpperWord` | word_search_st.py:123-126 | the upper-cased word has the word's length, and each position holds `Upper` of the word's letter there |
| `Grid.NewBoard` | word_search_st.py:33-41 | the new board has `n` rows of `n` cells, every cell is `'.'`, so it meets the blank-or-upper-case invariant |
| `Validation.ContainsBlankRun` | word_search_st.py:68 | the scan returns true exactly when the string holds `k` consecutive `'.'` somewhere (always, for `k = 0`) |
| `Validation.BlankRows` | word_search_st.py:68 | true exactly when some row of the board holds `len(word)` consecutive blanks |
| `Validation.BlankColumns` | word_search_st.py:89-95 | builds every column top to bottom and is true exactly when one of them holds `len(word)` consecutive blanks |
| `Validation.RejectionOf` | word_search_st.py:61-64 | too long exactly when `len > n`; not alphabetic exactly when it fits but is not alphabetic, the empty word included; no rejection exactly when it fits and is alphabetic |
| `Validation.CheckWord` | word_search_st.py:60-76 | too long exactly when `len > n`; non-alphabetic exactly when it fits but is not alphabetic, the empty word included; otherwise placed, with the no-fit message exactly when neither rows nor columns have room; only rows gives left-to-right, only columns gives the 0..1 draw (down or up), both or neither keeps the 0..2 draw |
| `Validation.RejectionIgnoresBoard` | word_search_st.py:61-64 | a rejection depends only on the word and the board size, so checking the word again on any board of that size rejects it again |
| `Validation.FreshBoardHasSpace` | word_search_st.py:68-95 | on a new board every row (the row scan at line 68) and every column (the column scan at lines 89-95) has room for any word no longer than the board |
| `Validation.FreshBoardKeepsDraw` | word_search_st.py:66-76 | on a new board an acceptable word keeps the 0..2 draw and gets no no-fit message |
| `Placement.InBounds` | word_search_st.py:112-145 | the bound test of each direction, for either rule: as written, down needs `r + 1 + len <= n`, up needs `r + 1 - len >= 1`, left to right needs `c + 1 + len <= n`; corrected, down needs `r + len <= n`, up needs `r + 1 - len >= 0`, left to right needs `c + len <= n` |
| `Placement.Span` | word_search_st.py:114-152 | the span has the word's length, and position `i` holds the board cell `i` steps from the start: increasing row for down, decreasing row for up, increasing column for left to right |
| `Placement.Accepts` | word_search_st.py:120-122 | the span holds exactly one distinct value, or some position of the span holds the word's own letter at that position, compared case-sensitively |
| `Placement.InBoundsSpanOnBoard` | word_search_st.py:112-152 | a start cell that passes the bound test has its whole span on the board, so every read and write uses an existing cell |
| `Placement.AsWrittenSpanAvoidsEdge` | word_search_st.py:112-152 | under the source's tests down never reaches the last row, up never reaches row 0, left-to-right never reaches the last column |
| `Placement.AsWrittenRejectsFullLength` | word_search_st.py:112-145 | under the source's tests no start cell on the board passes for a word at least as long as the board, in any direction |
| `Placement.IntendedBoundsExact` | word_search_st.py:112-145 | the corrected test admits a start cell exactly when the span of a non-empty word lies on the board |
| `Placement.OnSpanIsSpanCell` | word_search_st.py:114-118 | the cells a placement treats as covered are exactly the cells the span reads, position by position |
| `Placement.SingleValueIffUniform` | word_search_st.py:120 | `len(set(span)) == 1` holds exactly when the span is non-empty and every position holds its first character |
| `Placement.UniformSpanAccepted` | word_search_st.py:120-122 | a span holding one value throughout is accepted for any word, even one that agrees with it nowhere |
| `Placement.LowerCaseWordNeedsUniformSpan` | word_search_st.py:120-122 | on a board of blanks and upper-case letters, a lower-case word at a start cell that passes the bound test is admitted exactly when its span is uniform |
| `Placement.Write` | word_search_st.py:123-160 | after writing, reading the span in the direction's order gives the upper-cased word, every other cell is unchanged, the board keeps its size and its invariant |
| `Placement.Attempt` | word_search_st.py:112-161 | an attempt succeeds exactly when the start cell passes its bound test and the span passes the acceptance rule; on success the span reads back the upper-cased word and nothing else changes |
| `Placement.FirstAdmitted` | word_search_st.py:109-164 | the search finds no draw exactly when no draw from the given position on is admitted; otherwise it returns an admitted draw with no admitted draw before it |
| `Placement.PlaceWord` | word_search_st.py:109-164 | the loop ends exactly when some drawn start cell is admitted; it ends at the first admitted draw, with that draw's board |
| `Placement.BlankSpanAdmits` | word_search_st.py:112-122 | on a blank board a non-empty word is admitted at a start cell exactly when that cell passes the bound test |
| `Placement.IntendedPlacesFullLength` | word_search_st.py:112-145 | with the corrected tests a word as long as the board is placed on a blank board, in every direction |
| `Placement.FullLengthNeverPlaced` | word_search_st.py:111-164 | under the source's tests no sequence of draws ends the loop for a word at least as long as the board |
| `Placement.SpinsIffNoAdmissibleStart` | word_search_st.py:109-164 | no sequence of draws ends the loop exactly when no start cell on the board is admitted |
| `Filling.Fill` | word_search_st.py:177-183 | after filling no cell is `'.'`, every non-blank cell is unchanged, every blank cell holds the drawn upper-case letter, the shape is kept |
| `Filling.FillCompletesValid` | word_search_st.py:177-183 | filling a board of blanks and upper-case letters leaves only upper-case letters |
| `Filling.FillIdempotent` | word_search_st.py:177-183 | filling a filled board again, with any draws, changes nothing |
| `Puzzle.HandleWord` | word_search_st.py:60-76 | a rejected word leaves exactly one diagnostic with its reason and the board unchanged; an acceptable word leaves the no-fit diagnostic exactly when `CheckWord` reported no room, and none otherwise; the loop keeps drawing exactly when no drawn start cell is admitted in the chosen direction; a new board is the old one with the upper-cased word laid along the span of the first admitted drawn start cell (one that passes the bound test and the acceptance rule, with no earlier draw that does), with its size and invariant kept |
| `Puzzle.CheckWords` | word_search_st.py:60-76 | the run keeps the board's size and invariant, writes no more diagnostics than the words it handled, each about a word of the list (the per-word, in-order breakdown is `Puzzle.CheckWordsAppend` with `Puzzle.HandleWord`), and can stall only at an acceptable word |
| `Puzzle.RejectedWordsReported` | word_search_st.py:60-64 | every rejected word the run reached has its reason among the diagnostics |
| `Puzzle.CheckWordsAppend` | word_search_st.py:60-76 | words are handled in list order: the run over two lists joined is the run over the first, then, from the board it left, the run over the second, with the diagnostics joined in order; a run that stalls in the first list never reaches the second |
| `Puzzle.Generate` | word_search_st.py:16-18 | a finished run yields an `n × n` board of upper-case letters only; it finishes exactly when the word loop on a new board does, with the same diagnostics; every letter the words wrote survives the fill and every cell they left blank holds the letter drawn for it |
| `Puzzle.OneWordOnFreshBoard` | word_search_st.py:16-18 | one acceptable word on a new board with a drawn start cell that passes the bound test: the run finishes without a diagnostic, the grid reads the upper-cased word along the span of the first such draw, and every other cell holds the letter drawn for it |
| `Puzzle.FilledPlacement` | word_search_st.py:177-183 | filling a blank board that carries one placed word keeps the upper-cased word along its span and puts the drawn letter in every other cell |
| `Puzzle.RejectedWordsLeaveBoard` | word_search_st.py:60-64 | when every word is rejected the run finishes with the board untouched and exactly one diagnostic per word, in order, each with that word's reason |
| `Puzzle.AllRejectedGivesFillerOnly` | word_search_st.py:177-183 | when every word is rejected the finished grid holds the filler letters alone, one drawn letter per cell |
| `Puzzle.FullLengthWordNeverLeaves` | word_search_st.py:61-76 | an alphabetic word as long as the board passes validation, then no draw ends its retry loop |
| `Puzzle.FullLengthWordSpins` | word_search_st.py:60-76 | an alphabetic word as long as the board anywhere in the list stalls the run at that word or an earlier one |
| `Puzzle.NoSpaceWordStillPlaced` | word_search_st.py:70-76 | a word reported as not fitting is still placed: on a full 3 × 3 board "ab" gets the no-fit message and is then written down from (0, 0) |

## Findings

| source | as written | input that shows it | evidently intended | confidence | as-written member | corrected member |
|---|---|---|---|---|---|---|
| word_search_st.py:112 | the bound tests are `r+1+len <= rows` (down), `r+1-len >= 1` (up) and `c+1+len <= columns` (left to right), one cell stricter than the board needs; a word as long as the board passes the length check at :61 but no start cell passes any test, so the `while True` at :111 never ends | board size 10 and the word "abcdefghij" | `r+len <= rows`, `r+1-len >= 0`, `c+len <= columns`: the span lies on the board | high; not executed | `Puzzle.FullLengthWordSpins` | `Placement.IntendedPlacesFullLength` |

The corrected tests are `BoundRule.Intended`. `Attempt`, `PlaceWord`,
`HandleWord`, `CheckWords` and `Generate` take the rule as a parameter; the
members listed above as proved for both rules hold under the corrected
tests as well. `IntendedBoundsExact` shows that the corrected tests admit exactly the spans on the board.

## Left out

- Streamlit input and output: the title, the text box, the size slider, `split(" ")` of the input, the `st.write` messages and `display_board` (word_search_st.py:1-19, 185-201). Messages are the `Reason` datatype instead of text.
- Randomness: every `random.randint` call is a parameter. The 0..1 column-direction draw is always passed but used only when only columns have room. Filler letters are `pick(r, c)` per cell, not one shared stream of draws.
- The literal `while True` loop: it is run on a finite sequence of drawn start cells. A run whose draws admit no start cell is reported as `Spinning`; the source keeps looping.
- Unicode: `isalpha` and `upper` are modelled on ASCII letters only. Python also accepts non-ASCII letters, and `upper` can lengthen some of them; the model treats non-ASCII characters as non-letters.
- The unused `sys` import.
- Object state: the board is a value passed from step to step, not a mutated attribute.

=== FILE: filling.dfy ===
/** `fill_board`: every cell still blank after placement receives a random
  upper-case letter. The draws are a parameter: `pick(r, c)` is the code
  drawn from 65..90 for cell (r, c), and the cell receives that character.
 */
module Filling {
  import opened Grid

  /** Every code `pick` yields for a cell of `b` is an upper-case ASCII letter. */
  predicate LetterCodes(b: Board, pick: (nat, nat) -> int) {
    forall r: nat, c: nat :: r < |b| && c < |b[r]| ==> 65 <= pick(r, c) <= 90
  }

  function Fill(b: Board, pick: (nat, nat) -> int): (f: Board)
    requires LetterCodes(b, pick)
    ensures |f| == |b| && forall r :: 0 <= r < |b| ==> |f[r]| == |b[r]|
    ensures forall r, c :: 0 <= r < |b| && 0 <= c < |b[r]| ==> f[r][c] != Blank
    ensures forall r, c :: 0 <= r < |b| && 0 <= c < |b[r]| && b[r][c] != Blank ==> f[r][c] == b[r][c]
    ensures forall r, c :: 0 <= r < |b| && 0 <= c < |b[r]| && b[r][c] == Blank ==>
      IsUpper(f[r][c]) && f[r][c] as int == pick(r, c)
  {
    seq(|b|, r requires 0 <= r < |b| =>
      seq(|b[r]|, c requires 0 <= c < |b[r]| =>
        if b[r][c] == Blank then pick(r, c) as char else b[r][c]))
  }

  /** Filling a valid board leaves no blank: every cell is an upper-case letter. */
  lemma FillCompletesValid(b: Board, n: nat, pick: (nat, nat) -> int)
    requires Valid(b, n) && LetterCodes(b, pick)
    ensures Square(Fill(b, pick), n)
    ensures forall r, c :: 0 <= r < n && 0 <= c < n ==> IsUpper(Fill(b, pick)[r][c])
  {
  }

  /** A filled board has no blank left, so filling it again, with any
      draws, changes nothing. */
  lemma FillIdempotent(b: Board, pick: (nat, nat) -> int, pick': (nat, nat) -> int)
    requires LetterCodes(b, pick) && LetterCodes(b, pick')
    ensures LetterCodes(Fill(b, pick), pick')
    ensures Fill(Fill(b, pick), pick') == Fill(b, pick)
  {
    var f := Fill(b, pick);
    var g := Fill(f, pick');
    forall r | 0 <= r < |b| ensures g[r] == f[r] {
      assert |g[r]| == |f[r]|;
    }
  }
}

=== FILE: grid.dfy ===
/** Cells, letters and boards of the word-search puzzle.

  The board is a square sequence of rows; a cell holds the blank marker '.'
  until a word or a filler letter is written to it. Letters are ASCII only:
  `IsAlpha` and `Upper` model Python's `str.isalpha` and `str.upper` on
  the 52 ASCII letters.
 */
module Grid {

  /** The marker of a cell that no word and no filler letter has reached. */
  const Blank: char := '.'

  type Board = seq<seq<char>>

  /** The three orientations a word can be laid out in. */
  datatype Direction = Down | Up | LeftToRight

  /** The source numbers directions 0 (down), 1 (up) and 2 (left to right). */
  function DirectionOf(code: int): Direction
    requires 0 <= code <= 2
  {
    if code == 0 then Down else if code == 1 then Up else LeftToRight
  }

  predicate IsUpper(ch: char) { 'A' <= ch <= 'Z' }

  predicate IsLower(ch: char) { 'a' <= ch <= 'z' }

  predicate IsLetter(ch: char) { IsUpper(ch) || IsLower(ch) }

  /** Python's `str.isalpha`: at least one character, and every one a letter. */
  predicate IsAlpha(w: seq<char>) {
    |w| > 0 && forall i :: 0 <= i < |w| ==> IsLetter(w[i])
  }

  /** Python's `str.upper` on one character. */
  function Upper(ch: char): (u: char)
    ensures IsLetter(ch) ==> IsUpper(u)
    ensures IsUpper(ch) || !IsLetter(ch) ==> u == ch
    ensures IsLower(ch) ==> u as int + 32 == ch as int
  {
    if IsLower(ch) then (ch as int - 32) as char else ch
  }

  function UpperWord(w: seq<char>): (u: seq<char>)
    ensures |u| == |w|
    ensures forall i :: 0 <= i < |w| ==> u[i] == Upper(w[i])
  {
    seq(|w|, i requires 0 <= i < |w| => Upper(w[i]))
  }

  /** `n` rows of `n` cells each. */
  predicate Square(b: Board, n: nat) {
    |b| == n && forall r :: 0 <= r < |b| ==> |b[r]| == n
  }

  predicate InGrid(n: nat, cell: (int, int)) {
    0 <= cell.0 < n && 0 <= cell.1 < n
  }

  /** The content of an on-board cell given as (row, column). */
  function At(b: Board, n: nat, cell: (int, int)): char
    requires Square(b, n) && InGrid(n, cell)
  {
    b[cell.0][cell.1]
  }

  /** A cell is either still blank or holds an upper-case letter. */
  predicate CellOk(ch: char) { ch == Blank || IsUpper(ch) }

  /** The invariant the puzzle keeps: square, and every cell blank or an upper-case letter. */
  predicate Valid(b: Board, n: nat) {
    Square(b, n) && forall r, c :: 0 <= r < n && 0 <= c < n ==> CellOk(b[r][c])
  }

  /** The board a new puzzle starts from (`word_search.__init__`). */
  function NewBoard(n: nat): (b: Board)
    ensures Square(b, n)
    ensures forall r, c :: 0 <= r < n && 0 <= c < n ==> b[r][c] == Blank
    ensures Valid(b, n)
  {
    seq(n, _ => seq(n, _ => Blank))
  }
}

=== FILE: options.dfy ===
/** An optional value: a failed attempt, a loop still running, a word that is not rejected. */
module Options {

  datatype Option<+T> = None | Some(value: T)
}

=== FILE: placement.dfy ===
/** One placement attempt of `_add_words`, and its retry loop run over a
  finite sequence of drawn start cells.

  An attempt takes a start cell and a direction. It applies the direction's
  bound test, reads the span the word would cover, accepts the span when it
  holds a single value or agrees with the word at some position, and then
  writes the upper-cased word along the span.

  The source's bound tests are one cell stricter than the board requires
  (`AsWritten`); `Intended` is the test that admits exactly the spans lying
  on the board. `InBoundsSpanOnBoard`, `Attempt`, `FirstAdmitted`,
  `PlaceWord`, `BlankSpanAdmits`, `LowerCaseWordNeedsUniformSpan` and
  `SpinsIffNoAdmissibleStart` take the rule as a parameter and hold for both;
  the remaining bound lemmas are about one rule each.
 */
module Placement {
  import opened Options
  import opened Grid

  datatype BoundRule = AsWritten | Intended

  /** The `i`-th cell of the span that starts at `start`. Down: increasing
      row index; up: decreasing row index; left to right: increasing column
      index. */
  function Cell(d: Direction, start: (int, int), i: int): (int, int) {
    match d
    case Down => (start.0 + i, start.1)
    case Up => (start.0 - i, start.1)
    case LeftToRight => (start.0, start.1 + i)
  }

  /** The bound test that guards each direction of the retry loop. */
  predicate InBounds(rule: BoundRule, n: nat, start: (int, int), d: Direction, len: nat) {
    match rule
    case AsWritten => (
      match d
      case Down => start.0 + 1 + len <= n
      case Up => start.0 + 1 - len >= 1
      case LeftToRight => start.1 + 1 + len <= n)
    case Intended => (
      match d
      case Down => start.0 + len <= n
      case Up => start.0 + 1 - len >= 0
      case LeftToRight => start.1 + len <= n)
  }

  /** Every cell of a span of length `len` lies on the board. */
  predicate SpanInRange(n: nat, start: (int, int), d: Direction, len: nat) {
    forall i :: 0 <= i < len ==> InGrid(n, Cell(d, start, i))
  }

  /** The cells a span covers, read in the direction's order. */
  function Span(b: Board, n: nat, start: (int, int), d: Direction, len: nat): (s: seq<char>)
    requires Square(b, n) && SpanInRange(n, start, d, len)
    ensures |s| == len
    ensures forall i :: 0 <= i < len ==> s[i] == At(b, n, Cell(d, start, i))
  {
    seq(len, i requires 0 <= i < len => At(b, n, Cell(d, start, i)))
  }

  /** The distinct characters of a string: Python's `set(s)`. */
  function Values(s: seq<char>): set<char> {
    set x | x in s
  }

  /** Every position holds the same character as the first. */
  predicate Uniform(s: seq<char>) {
    |s| > 0 && forall i :: 0 <= i < |s| ==> s[i] == s[0]
  }

  /** The acceptance rule: the span holds exactly one distinct value, or
      some position of the span holds the word's own letter there. The
      comparison is case-sensitive, against the word as given. */
  predicate Accepts(span: seq<char>, w: seq<char>) {
    |Values(span)| == 1 || exists i :: 0 <= i < |span| && i < |w| && span[i] == w[i]
  }

  /** The draw `start` ends the retry loop: it passes the bound test and its
      span passes the acceptance rule. */
  predicate Admits(rule: BoundRule, b: Board, n: nat, w: seq<char>, start: (int, int), d: Direction)
    requires Square(b, n) && InGrid(n, start)
  {
    InBounds(rule, n, start, d, |w|) && Accepts(Span(b, n, start, d, |w|), w)
  }

  /** Cell `(p, q)` is covered by the span of length `len` from `start`. */
  predicate OnSpan(start: (int, int), d: Direction, len: nat, p: int, q: int) {
    match d
    case Down => q == start.1 && start.0 <= p < start.0 + len
    case Up => q == start.1 && start.0 - len < p <= start.0
    case LeftToRight => p == start.0 && start.1 <= q < start.1 + len
  }

  /** The position along the span of a covered cell. */
  function Offset(start: (int, int), d: Direction, p: int, q: int): int {
    match d
    case Down => p - start.0
    case Up => start.0 - p
    case LeftToRight => q - start.1
  }

  /** The covered cells are exactly the cells `Cell(d, start, i)` of the span. */
  lemma OnSpanIsSpanCell(start: (int, int), d: Direction, len: nat, p: int, q: int)
    ensures OnSpan(start, d, len, p, q) <==> exists i :: 0 <= i < len && Cell(d, start, i) == (p, q)
  {
    if OnSpan(start, d, len, p, q) {
      assert Cell(d, start, Offset(start, d, p, q)) == (p, q);
    }
  }

  /** `b'` is `b` with the upper-cased word laid along the span: the span
      reads back as the word, every other cell is as before, and the board
      keeps its size. */
  predicate Placed(b: Board, b': Board, n: nat, w: seq<char>, start: (int, int), d: Direction)
    requires Square(b, n) && SpanInRange(n, start, d, |w|)
  {
    && Square(b', n)
    && Span(b', n, start, d, |w|) == UpperWord(w)
    && forall p, q :: 0 <= p < n && 0 <= q < n && !OnSpan(start, d, |w|, p, q) ==> b'[p][q] == b[p][q]
  }

  /** The writing loop of an accepted attempt. */
  function Write(b: Board, n: nat, w: seq<char>, start: (int, int), d: Direction): (b': Board)
    requires Square(b, n) && SpanInRange(n, start, d, |w|)
    ensures Placed(b, b', n, w, start, d)
    ensures Valid(b, n) && IsAlpha(w) ==> Valid(b', n)
  {
    seq(n, p requires 0 <= p < n =>
      seq(n, q requires 0 <= q < n =>
        if OnSpan(start, d, |w|, p, q) then Upper(w[Offset(start, d, p, q)]) else b[p][q]))
  }

  /** One pass of the `while True` body of `_add_words` for the draw `start`:
      the new board if the draw is admitted, `None` if the loop draws again. */
  function Attempt(rule: BoundRule, b: Board, n: nat, w: seq<char>, start: (int, int), d: Direction): (o: Option<Board>)
    requires Square(b, n) && InGrid(n, start)
    ensures o.Some? <==> Admits(rule, b, n, w, start, d)
    ensures o.Some? ==> SpanInRange(n, start, d, |w|) && Placed(b, o.value, n, w, start, d)
    ensures o.Some? && Valid(b, n) && IsAlpha(w) ==> Valid(o.value, n)
  {
    if Admits(rule, b, n, w, start, d) then Some(Write(b, n, w, start, d)) else None
  }

  /** The index of the first start cell from position `k` on that the
      retry loop admits, or `None` when there is none. */
  function FirstAdmitted(rule: BoundRule, b: Board, n: nat, w: seq<char>, d: Direction, starts: seq<(int, int)>, k: nat): (o: Option<nat>)
    requires Square(b, n) && k <= |starts|
    requires forall i :: 0 <= i < |starts| ==> InGrid(n, starts[i])
    ensures o.None? <==> forall i :: k <= i < |starts| ==> !Admits(rule, b, n, w, starts[i], d)
    ensures o.Some? ==>
      && k <= o.value < |starts|
      && Admits(rule, b, n, w, starts[o.value], d)
      && forall i :: k <= i < o.value ==> !Admits(rule, b, n, w, starts[i], d)
    decreases |starts| - k
  {
    if k == |starts| then None
    else if Admits(rule, b, n, w, starts[k], d) then Some(k)
    else FirstAdmitted(rule, b, n, w, d, starts, k + 1)
  }

  /** The retry loop of `_add_words` fed the start cells `starts` in order:
      the board after the first admitted draw together with that draw's
      index, or `None` when no draw in `starts` is admitted (the source's
      loop is then still running). */
  function PlaceWord(rule: BoundRule, b: Board, n: nat, w: seq<char>, d: Direction, starts: seq<(int, int)>): (o: Option<(Board, nat)>)
    requires Square(b, n)
    requires forall i :: 0 <= i < |starts| ==> InGrid(n, starts[i])
    ensures o.None? <==> forall i :: 0 <= i < |starts| ==> !Admits(rule, b, n, w, starts[i], d)
    ensures o.Some? ==>
      && o.value.1 < |starts|
      && Attempt(rule, b, n, w, starts[o.value.1], d) == Some(o.value.0)
      && forall i :: 0 <= i < o.value.1 ==> !Admits(rule, b, n, w, starts[i], d)
  {
    match FirstAdmitted(rule, b, n, w, d, starts, 0)
    case None => None
    case Some(i) => Some((Write(b, n, w, starts[i], d), i))
  }

  /** `len(set(s)) == 1` holds exactly when `s` is non-empty and every
      position holds the same character. */
  lemma SingleValueIffUniform(s: seq<char>)
    ensures |Values(s)| == 1 <==> Uniform(s)
  {
    if Uniform(s) {
      assert s[0] in Values(s);
      forall x | x in Values(s) ensures x == s[0] {
        var i :| 0 <= i < |s| && s[i] == x;
      }
      assert Values(s) == {s[0]};
    }
    if |Values(s)| == 1 {
      var v :| v in Values(s);
      var rest := Values(s) - {v};
      assert Values(s) == rest + {v} && rest !! {v};
      assert |rest| == 0;
      forall i | 0 <= i < |s| ensures s[i] == v {
        assert s[i] in Values(s);
      }
    }
  }

  /** A span that already holds one value throughout is accepted whatever
      the word, so a run of one repeated letter is overwritten even where no
      letter of the word agrees with it. */
  lemma UniformSpanAccepted(span: seq<char>, w: seq<char>)
    requires Uniform(span)
    ensures Accepts(span, w)
  {
    SingleValueIffUniform(span);
  }

  /** On a board of blanks and upper-case letters, a lower-case word never
      agrees with a cell, so it is accepted exactly when its span is uniform. */
  lemma LowerCaseWordNeedsUniformSpan(b: Board, n: nat, w: seq<char>, start: (int, int), d: Direction, rule: BoundRule)
    requires Valid(b, n) && InGrid(n, start)
    requires forall i :: 0 <= i < |w| ==> IsLower(w[i])
    requires InBounds(rule, n, start, d, |w|)
    ensures Admits(rule, b, n, w, start, d) <==> Uniform(Span(b, n, start, d, |w|))
  {
    var span := Span(b, n, start, d, |w|);
    forall i | 0 <= i < |span| && i < |w| ensures span[i] != w[i] {
      assert CellOk(At(b, n, Cell(d, start, i)));
    }
    SingleValueIffUniform(span);
  }

  /** A span passing either bound test lies on the board, so an attempt
      reads and writes only existing cells. */
  lemma InBoundsSpanOnBoard(rule: BoundRule, n: nat, start: (int, int), d: Direction, len: nat)
    requires InGrid(n, start) && InBounds(rule, n, start, d, len)
    ensures SpanInRange(n, start, d, len)
  {
  }

  /** The source's bound tests keep one cell away from an edge: down never
      reaches the last row, up never reaches row 0, left-to-right never
      reaches the last column. */
  lemma AsWrittenSpanAvoidsEdge(n: nat, start: (int, int), d: Direction, len: nat)
    requires InGrid(n, start) && InBounds(AsWritten, n, start, d, len)
    ensures forall i :: 0 <= i < len ==> InGrid(n, Cell(d, start, i))
    ensures d == Down ==> forall i :: 0 <= i < len ==> Cell(d, start, i).0 < n - 1
    ensures d == Up ==> forall i :: 0 <= i < len ==> Cell(d, start, i).0 > 0
    ensures d == LeftToRight ==> forall i :: 0 <= i < len ==> Cell(d, start, i).1 < n - 1
  {
  }

  /** Under the source's bound tests no start cell admits a word as long as
      the board, in any direction. */
  lemma AsWrittenRejectsFullLength(n: nat, start: (int, int), d: Direction, len: nat)
    requires InGrid(n, start) && len >= n
    ensures !InBounds(AsWritten, n, start, d, len)
  {
  }

  /** The intended bound test admits exactly the start cells whose span of a
      non-empty word lies on the board. */
  lemma IntendedBoundsExact(n: nat, start: (int, int), d: Direction, len: nat)
    requires InGrid(n, start) && len >= 1
    ensures InBounds(Intended, n, start, d, len) <==> SpanInRange(n, start, d, len)
  {
    if SpanInRange(n, start, d, len) {
      assert InGrid(n, Cell(d, start, len - 1));
    }
  }

  /** The start cell from which a span of length `n` covers a whole column
      (down, up) or a whole row (left to right). */
  function FullSpanStart(n: nat, d: Direction): (int, int)
    requires n >= 1
  {
    match d
    case Down => (0, 0)
    case Up => (n - 1, 0)
    case LeftToRight => (0, 0)
  }

  /** On a blank board every span is uniform, so a non-empty word is
      admitted exactly where it passes the bound test. */
  lemma BlankSpanAdmits(rule: BoundRule, n: nat, w: seq<char>, start: (int, int), d: Direction)
    requires InGrid(n, start) && |w| >= 1
    ensures Admits(rule, NewBoard(n), n, w, start, d) <==> InBounds(rule, n, start, d, |w|)
  {
    if InBounds(rule, n, start, d, |w|) {
      var span := Span(NewBoard(n), n, start, d, |w|);
      assert Uniform(span);
      UniformSpanAccepted(span, w);
    }
  }

  /** With the intended bound test a word as long as the board is placed in
      any direction on a blank board. */
  lemma IntendedPlacesFullLength(n: nat, w: seq<char>, d: Direction)
    requires n >= 1 && |w| == n
    ensures Attempt(Intended, NewBoard(n), n, w, FullSpanStart(n, d), d).Some?
  {
    var b := NewBoard(n);
    var start := FullSpanStart(n, d);
    assert InBounds(Intended, n, start, d, |w|);
    var span := Span(b, n, start, d, |w|);
    assert Uniform(span);
    UniformSpanAccepted(span, w);
  }

  /** Under the source's bound tests the retry loop never ends for a word as
      long as the board: whatever start cells are drawn, none is admitted. */
  lemma FullLengthNeverPlaced(b: Board, n: nat, w: seq<char>, d: Direction, starts: seq<(int, int)>)
    requires Square(b, n) && |w| >= n
    requires forall i :: 0 <= i < |starts| ==> InGrid(n, starts[i])
    ensures PlaceWord(AsWritten, b, n, w, d, starts) == None
  {
    forall i | 0 <= i < |starts| ensures !Admits(AsWritten, b, n, w, starts[i], d) {
      AsWrittenRejectsFullLength(n, starts[i], d, |w|);
    }
  }

  /** No start cell on the board admits the word in direction `d`. */
  ghost predicate NoAdmissibleStart(rule: BoundRule, b: Board, n: nat, w: seq<char>, d: Direction)
    requires Square(b, n)
  {
    forall start :: InGrid(n, start) ==> !Admits(rule, b, n, w, start, d)
  }

  /** The retry loop can end exactly when some start cell is admitted: when
      none is, no sequence of draws ends it, and when one is, drawing it ends
      the loop. */
  lemma SpinsIffNoAdmissibleStart(rule: BoundRule, b: Board, n: nat, w: seq<char>, d: Direction)
    requires Square(b, n)
    ensures NoAdmissibleStart(rule, b, n, w, d) <==>
      forall starts :: (forall i :: 0 <= i < |starts| ==> InGrid(n, starts[i])) ==>
        PlaceWord(rule, b, n, w, d, starts).None?
  {
    if !NoAdmissibleStart(rule, b, n, w, d) {
      var start :| InGrid(n, start) && Admits(rule, b, n, w, start, d);
      assert PlaceWord(rule, b, n, w, d, [start]).Some?;
    }
  }
}

=== FILE: puzzle.dfy ===
/** `check_words` over the whole word list, then `fill_board`.

  Words are handled in order. A rejected word leaves one diagnostic and the
  board as it was; an accepted word goes to the retry loop of `_add_words`
  with the direction `check_words` chose. When none of the start cells drawn
  for a word is admitted, the source's loop has not ended: the run is then
  reported as `Spinning` at that word, and later words and the fill are
  never reached.
 */
module Puzzle {
  import opened Options
  import opened Grid
  import opened Validation
  import opened Placement
  import opened Filling

  /** The per-word diagnostics the source writes to the page: one of the two
      rejections, or the "does not fit the remaining space" message. */
  datatype Reason = Rejected(why: Rejection) | NoSpaceAvailable

  datatype Diagnostic = Diagnostic(word: seq<char>, reason: Reason)

  /** The random draws made for one word: the 0..2 direction draw, the 0..1
      draw used when only columns have room, and the start cells the retry
      loop draws, in order. */
  datatype WordDraws = WordDraws(direction: int, columnDirection: int, starts: seq<(int, int)>)

  predicate DrawsFit(n: nat, wd: WordDraws) {
    && 0 <= wd.direction <= 2
    && 0 <= wd.columnDirection <= 1
    && forall i :: 0 <= i < |wd.starts| ==> InGrid(n, wd.starts[i])
  }

  /** `Done`: every word was handled. `Spinning`: the retry loop for word
      number `word` has not ended within the draws supplied. */
  datatype Progress =
    | Done(board: Board, diagnostics: seq<Diagnostic>)
    | Spinning(board: Board, diagnostics: seq<Diagnostic>, word: nat)

  /** Word `i` of a list of `total` words has been handled by the run `p`:
      every word has when it is done, otherwise the words up to the one whose
      retry loop is still drawing. */
  predicate Reached(p: Progress, total: nat, i: nat) {
    if p.Done? then i < total else i <= p.word
  }

  /** The number of words the run `p` has handled. */
  function Handled(p: Progress, total: nat): nat {
    if p.Done? then total else p.word + 1
  }

  /** The progress `p` over later words, preceded by `k` handled words that
      left the diagnostics `ds`. */
  function After(ds: seq<Diagnostic>, k: nat, p: Progress): Progress {
    match p
    case Done(b, rest) => Done(b, ds + rest)
    case Spinning(b, rest, j) => Spinning(b, ds + rest, k + j)
  }

  /** What one pass of the `check_words` loop leaves: the diagnostics it
      wrote, and the board afterwards, or `None` while `_add_words` is
      still drawing start cells. */
  datatype WordResult = WordResult(diagnostics: seq<Diagnostic>, board: Option<Board>)

  /** One pass of the `check_words` loop: validate the word, choose its
      direction, and run the retry loop on the drawn start cells. */
  function HandleWord(rule: BoundRule, b: Board, n: nat, w: seq<char>, wd: WordDraws): (res: WordResult)
    requires Square(b, n) && DrawsFit(n, wd)
    ensures RejectionOf(n, w).Some? ==>
      res == WordResult([Diagnostic(w, Rejected(RejectionOf(n, w).value))], Some(b))
    ensures res.board.None? ==> RejectionOf(n, w).None?
    ensures |res.diagnostics| <= 1
    ensures forall i :: 0 <= i < |res.diagnostics| ==> res.diagnostics[i].word == w
    ensures var d := CheckWord(b, n, w, wd.direction, wd.columnDirection);
      d.Place? ==> res.diagnostics == (if d.noSpace then [Diagnostic(w, NoSpaceAvailable)] else [])
    ensures var d := CheckWord(b, n, w, wd.direction, wd.columnDirection);
      d.Place? ==>
        (res.board.None? <==> forall i :: 0 <= i < |wd.starts| ==> !Admits(rule, b, n, w, wd.starts[i], d.dir))
    ensures var d := CheckWord(b, n, w, wd.direction, wd.columnDirection);
      d.Place? && res.board.Some? ==>
        exists i ::
          && 0 <= i < |wd.starts|
          && Admits(rule, b, n, w, wd.starts[i], d.dir)
          && (forall j :: 0 <= j < i ==> !Admits(rule, b, n, w, wd.starts[j], d.dir))
          && SpanInRange(n, wd.starts[i], d.dir, |w|)
          && Placed(b, res.board.value, n, w, wd.starts[i], d.dir)
    ensures res.board.Some? ==> Square(res.board.value, n)
    ensures res.board.Some? && Valid(b, n) ==> Valid(res.board.value, n)
  {
    match CheckWord(b, n, w, wd.direction, wd.columnDirection)
    case Reject(why) => WordResult([Diagnostic(w, Rejected(why))], Some(b))
    case Place(d, noSpace) =>
      var ds := if noSpace then [Diagnostic(w, NoSpaceAvailable)] else [];
      match PlaceWord(rule, b, n, w, d, wd.starts)
      case None => WordResult(ds, None)
      case Some((b', i)) =>
        assert Attempt(rule, b, n, w, wd.starts[i], d) == Some(b');
        WordResult(ds, Some(b'))
  }

  /** The `check_words` loop over the word list, in order. */
  function CheckWords(rule: BoundRule, b: Board, n: nat, words: seq<seq<char>>, draws: seq<WordDraws>): (p: Progress)
    requires Square(b, n) && |draws| == |words|
    requires forall i :: 0 <= i < |draws| ==> DrawsFit(n, draws[i])
    ensures Square(p.board, n)
    ensures Valid(b, n) ==> Valid(p.board, n)
    ensures p.Spinning? ==> p.word < |words| && RejectionOf(n, words[p.word]).None?
    ensures |p.diagnostics| <= Handled(p, |words|)
    ensures forall i :: 0 <= i < |p.diagnostics| ==> p.diagnostics[i].word in words
    decreases |words|
  {
    if |words| == 0 then Done(b, [])
    else
      assert DrawsFit(n, draws[0]);
      assert forall x :: x in words[1..] ==> x in words;
      var res := HandleWord(rule, b, n, words[0], draws[0]);
      match res.board
      case None => Spinning(b, res.diagnostics, 0)
      case Some(b') =>
        After(res.diagnostics, 1, CheckWords(rule, b', n, words[1..], draws[1..]))
  }

  /** One step of the loop: the first word's pass, then the rest of the
      list from the board it left. */
  lemma CheckWordsStep(rule: BoundRule, b: Board, n: nat, words: seq<seq<char>>, draws: seq<WordDraws>)
    requires Square(b, n) && |draws| == |words| > 0
    requires forall i :: 0 <= i < |draws| ==> DrawsFit(n, draws[i])
    ensures DrawsFit(n, draws[0])
    ensures var res := HandleWord(rule, b, n, words[0], draws[0]);
      CheckWords(rule, b, n, words, draws) ==
        if res.board.None? then Spinning(b, res.diagnostics, 0)
        else After(res.diagnostics, 1, CheckWords(rule, res.board.value, n, words[1..], draws[1..]))
  {
    assert DrawsFit(n, draws[0]);
  }

  /** Every rejected word the run has reached leaves its reason among the
      diagnostics, whatever the other words do. */
  lemma {:induction false} RejectedWordsReported(rule: BoundRule, b: Board, n: nat, words: seq<seq<char>>, draws: seq<WordDraws>, i: nat)
    requires Square(b, n) && |draws| == |words|
    requires forall k :: 0 <= k < |draws| ==> DrawsFit(n, draws[k])
    requires i < |words| && RejectionOf(n, words[i]).Some?
    requires Reached(CheckWords(rule, b, n, words, draws), |words|, i)
    ensures Diagnostic(words[i], Rejected(RejectionOf(n, words[i]).value)) in CheckWords(rule, b, n, words, draws).diagnostics
    decreases |words|
  {
    CheckWordsStep(rule, b, n, words, draws);
    var res := HandleWord(rule, b, n, words[0], draws[0]);
    if i == 0 {
      assert res.diagnostics == [Diagnostic(words[0], Rejected(RejectionOf(n, words[0]).value))];
    } else {
      var rest := CheckWords(rule, res.board.value, n, words[1..], draws[1..]);
      assert Reached(rest, |words| - 1, i - 1);
      assert words[1..][i - 1] == words[i];
      RejectedWordsReported(rule, res.board.value, n, words[1..], draws[1..], i - 1);
      assert forall x :: x in rest.diagnostics ==> x in res.diagnostics + rest.diagnostics;
    }
  }

  /** The run `p` over the first `k` words, continued over further words
      from the board it reached. */
  function RunOn(rule: BoundRule, n: nat, p: Progress, k: nat, words: seq<seq<char>>, draws: seq<WordDraws>): Progress
    requires Square(p.board, n) && |draws| == |words|
    requires forall i :: 0 <= i < |draws| ==> DrawsFit(n, draws[i])
  {
    match p
    case Spinning(_, _, _) => p
    case Done(b, ds) => After(ds, k, CheckWords(rule, b, n, words, draws))
  }

  /** Words are handled one after another: running the loop over two lists
      joined is running it over the first and then, from the board that
      leaves, over the second, with the diagnostics joined in order. A run
      that stalls in the first list never reaches the second. */
  lemma {:induction false} CheckWordsAppend(rule: BoundRule, b: Board, n: nat, words: seq<seq<char>>, draws: seq<WordDraws>, more: seq<seq<char>>, moreDraws: seq<WordDraws>)
    requires Square(b, n) && |draws| == |words| && |moreDraws| == |more|
    requires forall i :: 0 <= i < |draws| ==> DrawsFit(n, draws[i])
    requires forall i :: 0 <= i < |moreDraws| ==> DrawsFit(n, moreDraws[i])
    ensures CheckWords(rule, b, n, words + more, draws + moreDraws) ==
      RunOn(rule, n, CheckWords(rule, b, n, words, draws), |words|, more, moreDraws)
    decreases |words|
  {
    if |words| == 0 {
      assert words + more == more && draws + moreDraws == moreDraws;
      assert [] + CheckWords(rule, b, n, more, moreDraws).diagnostics == CheckWords(rule, b, n, more, moreDraws).diagnostics;
    } else {
      var ws, ds := words + more, draws + moreDraws;
      assert ws[0] == words[0] && ds[0] == draws[0];
      assert ws[1..] == words[1..] + more && ds[1..] == draws[1..] + moreDraws;
      assert DrawsFit(n, draws[0]);
      var res := HandleWord(rule, b, n, words[0], draws[0]);
      if res.board.Some? {
        var b' := res.board.value;
        CheckWordsAppend(rule, b', n, words[1..], draws[1..], more, moreDraws);
        var q := CheckWords(rule, b', n, words[1..], draws[1..]);
        AfterRunOn(rule, n, res.diagnostics, q, |words| - 1, more, moreDraws);
      }
    }
  }

  /** One handled word in front of a run, then a continuation: the same
      whichever is applied first. */
  lemma AfterRunOn(rule: BoundRule, n: nat, ds: seq<Diagnostic>, q: Progress, k: nat, more: seq<seq<char>>, moreDraws: seq<WordDraws>)
    requires Square(q.board, n) && |moreDraws| == |more|
    requires forall i :: 0 <= i < |moreDraws| ==> DrawsFit(n, moreDraws[i])
    ensures After(ds, 1, RunOn(rule, n, q, k, more, moreDraws)) ==
      RunOn(rule, n, After(ds, 1, q), k + 1, more, moreDraws)
  {
    if q.Done? {
      var r := CheckWords(rule, q.board, n, more, moreDraws);
      assert ds + (q.diagnostics + r.diagnostics) == (ds + q.diagnostics) + r.diagnostics;
    }
  }

  /** A new board, every word handled in order, then the fill. */
  function Generate(rule: BoundRule, n: nat, words: seq<seq<char>>, draws: seq<WordDraws>, pick: (nat, nat) -> int): (p: Progress)
    requires |draws| == |words|
    requires forall i :: 0 <= i < |draws| ==> DrawsFit(n, draws[i])
    requires forall r: nat, c: nat :: r < n && c < n ==> 65 <= pick(r, c) <= 90
    ensures Square(p.board, n)
    ensures p.Done? ==> forall r, c :: 0 <= r < n && 0 <= c < n ==> IsUpper(p.board[r][c])
    ensures var q := CheckWords(rule, NewBoard(n), n, words, draws);
      && p.Done? == q.Done?
      && (p.Spinning? ==> p == q)
      && (p.Done? ==> p.diagnostics == q.diagnostics)
    ensures var q := CheckWords(rule, NewBoard(n), n, words, draws);
      p.Done? ==> forall r, c :: 0 <= r < n && 0 <= c < n ==>
        if q.board[r][c] == Blank then p.board[r][c] as int == pick(r, c)
        else p.board[r][c] == q.board[r][c]
  {
    match CheckWords(rule, NewBoard(n), n, words, draws)
    case Done(b, ds) =>
      FillCompletesValid(b, n, pick);
      Done(Fill(b, pick), ds)
    case Spinning(b, ds, k) => Spinning(b, ds, k)
  }

  /** The grid `g` reads the upper-cased word along the span from `start`,
      and every other cell holds the letter drawn for it. */
  predicate ShowsWord(g: Board, n: nat, w: seq<char>, start: (int, int), d: Direction, pick: (nat, nat) -> int)
    requires Square(g, n) && SpanInRange(n, start, d, |w|)
  {
    && Span(g, n, start, d, |w|) == UpperWord(w)
    && forall r, c :: 0 <= r < n && 0 <= c < n && !OnSpan(start, d, |w|, r, c) ==> g[r][c] as int == pick(r, c)
  }

  /** Draw number `i` is the first start cell drawn for `w` that passes the
      bound test in the drawn direction; its span then lies on the board. */
  predicate FirstInBounds(rule: BoundRule, n: nat, w: seq<char>, wd: WordDraws, i: int)
    requires DrawsFit(n, wd)
  {
    && 0 <= i < |wd.starts|
    && InBounds(rule, n, wd.starts[i], DirectionOf(wd.direction), |w|)
    && SpanInRange(n, wd.starts[i], DirectionOf(wd.direction), |w|)
    && forall j :: 0 <= j < i ==> !InBounds(rule, n, wd.starts[j], DirectionOf(wd.direction), |w|)
  }

  /** One acceptable word on a new board: the grid is finished without a
      diagnostic. The word is written, upper-cased, along the span of the
      first drawn start cell that passes the bound test, and every other
      cell holds the letter drawn for it. */
  lemma OneWordOnFreshBoard(rule: BoundRule, n: nat, w: seq<char>, wd: WordDraws, pick: (nat, nat) -> int)
    requires DrawsFit(n, wd)
    requires forall r: nat, c: nat :: r < n && c < n ==> 65 <= pick(r, c) <= 90
    requires |w| <= n && IsAlpha(w)
    requires exists k :: 0 <= k < |wd.starts| && InBounds(rule, n, wd.starts[k], DirectionOf(wd.direction), |w|)
    ensures var p := Generate(rule, n, [w], [wd], pick);
      && p.Done? && p.diagnostics == []
      && exists i :: FirstInBounds(rule, n, w, wd, i) && ShowsWord(p.board, n, w, wd.starts[i], DirectionOf(wd.direction), pick)
  {
    var b := NewBoard(n);
    var d := DirectionOf(wd.direction);
    FirstInBoundsFound(rule, n, w, wd);
    var i :| FirstInBounds(rule, n, w, wd, i);
    FreshWordPlaced(rule, n, w, wd, i);
    var b' := Write(b, n, w, wd.starts[i], d);
    SingleWordRun(rule, b, n, w, wd);
    FilledPlacement(b, b', n, w, wd.starts[i], d, pick);
    GenerateOfDone(rule, n, [w], [wd], pick, b', []);
  }

  /** Some drawn start cell passes the bound test, so there is a first one. */
  lemma FirstInBoundsFound(rule: BoundRule, n: nat, w: seq<char>, wd: WordDraws)
    requires DrawsFit(n, wd)
    requires exists k :: 0 <= k < |wd.starts| && InBounds(rule, n, wd.starts[k], DirectionOf(wd.direction), |w|)
    ensures exists i :: FirstInBounds(rule, n, w, wd, i)
  {
    var d := DirectionOf(wd.direction);
    var k :| 0 <= k < |wd.starts| && InBounds(rule, n, wd.starts[k], d, |w|);
    var i := k;
    while i > 0 && exists j :: 0 <= j < i && InBounds(rule, n, wd.starts[j], d, |w|)
      invariant 0 <= i <= k && InBounds(rule, n, wd.starts[i], d, |w|)
      decreases i
    {
      var j :| 0 <= j < i && InBounds(rule, n, wd.starts[j], d, |w|);
      i := j;
    }
    InBoundsSpanOnBoard(rule, n, wd.starts[i], d, |w|);
    assert FirstInBounds(rule, n, w, wd, i);
  }

  /** The pass for one acceptable word on a new board writes no diagnostic
      and places the word at the first drawn start cell that passes the
      bound test. */
  lemma FreshWordPlaced(rule: BoundRule, n: nat, w: seq<char>, wd: WordDraws, i: int)
    requires DrawsFit(n, wd)
    requires |w| <= n && IsAlpha(w)
    requires FirstInBounds(rule, n, w, wd, i)
    ensures HandleWord(rule, NewBoard(n), n, w, wd) == WordResult([], Some(Write(NewBoard(n), n, w, wd.starts[i], DirectionOf(wd.direction))))
  {
    var b := NewBoard(n);
    var d := DirectionOf(wd.direction);
    FreshBoardKeepsDraw(n, w, wd.direction, wd.columnDirection);
    forall j | 0 <= j < |wd.starts|
      ensures Admits(rule, b, n, w, wd.starts[j], d) <==> InBounds(rule, n, wd.starts[j], d, |w|)
    {
      BlankSpanAdmits(rule, n, w, wd.starts[j], d);
    }
    var o := PlaceWord(rule, b, n, w, d, wd.starts);
    assert o.value.1 == i;
  }

  /** A finished word loop finishes the grid: its board filled, its
      diagnostics kept. */
  lemma GenerateOfDone(rule: BoundRule, n: nat, words: seq<seq<char>>, draws: seq<WordDraws>, pick: (nat, nat) -> int, b: Board, ds: seq<Diagnostic>)
    requires |draws| == |words|
    requires forall i :: 0 <= i < |draws| ==> DrawsFit(n, draws[i])
    requires forall r: nat, c: nat :: r < n && c < n ==> 65 <= pick(r, c) <= 90
    requires CheckWords(rule, NewBoard(n), n, words, draws) == Done(b, ds)
    ensures Generate(rule, n, words, draws, pick) == Done(Fill(b, pick), ds)
  {
  }

  /** The loop over a one-word list is the pass for that word. */
  lemma SingleWordRun(rule: BoundRule, b: Board, n: nat, w: seq<char>, wd: WordDraws)
    requires Square(b, n) && DrawsFit(n, wd)
    ensures var res := HandleWord(rule, b, n, w, wd);
      CheckWords(rule, b, n, [w], [wd]) ==
        if res.board.Some? then Done(res.board.value, res.diagnostics) else Spinning(b, res.diagnostics, 0)
  {
    assert [w][1..] == [] && [wd][1..] == [];
    var res := HandleWord(rule, b, n, w, wd);
    assert res.diagnostics + [] == res.diagnostics;
  }

  /** Filling a blank board that carries one placed word keeps the word
      along its span and puts the drawn letter everywhere else. */
  lemma FilledPlacement(b: Board, b': Board, n: nat, w: seq<char>, start: (int, int), d: Direction, pick: (nat, nat) -> int)
    requires b == NewBoard(n) && IsAlpha(w)
    requires SpanInRange(n, start, d, |w|) && Placed(b, b', n, w, start, d)
    requires forall r: nat, c: nat :: r < n && c < n ==> 65 <= pick(r, c) <= 90
    ensures LetterCodes(b', pick)
    ensures ShowsWord(Fill(b', pick), n, w, start, d, pick)
  {
    var f := Fill(b', pick);
    forall k | 0 <= k < |w|
      ensures Span(f, n, start, d, |w|)[k] == UpperWord(w)[k]
    {
      assert Span(b', n, start, d, |w|)[k] == Upper(w[k]);
      assert IsUpper(Upper(w[k]));
    }
  }

  /** When every word is rejected the board is untouched and each word
      leaves exactly one diagnostic naming its reason, in input order. */
  lemma {:induction false} RejectedWordsLeaveBoard(rule: BoundRule, b: Board, n: nat, words: seq<seq<char>>, draws: seq<WordDraws>)
    requires Square(b, n) && |draws| == |words|
    requires forall i :: 0 <= i < |draws| ==> DrawsFit(n, draws[i])
    requires forall i :: 0 <= i < |words| ==> RejectionOf(n, words[i]).Some?
    ensures var p := CheckWords(rule, b, n, words, draws);
      && p.Done? && p.board == b && |p.diagnostics| == |words|
      && forall i :: 0 <= i < |words| ==>
           p.diagnostics[i] == Diagnostic(words[i], Rejected(RejectionOf(n, words[i]).value))
    decreases |words|
  {
    if |words| > 0 {
      CheckWordsStep(rule, b, n, words, draws);
      var first := Diagnostic(words[0], Rejected(RejectionOf(n, words[0]).value));
      assert HandleWord(rule, b, n, words[0], draws[0]) == WordResult([first], Some(b));
      assert forall i :: 1 <= i < |words| ==> words[i] == words[1..][i - 1];
      RejectedWordsLeaveBoard(rule, b, n, words[1..], draws[1..]);
    }
  }

  /** With the source's bound tests, a word as long as the board passes
      validation and then keeps the retry loop drawing forever. */
  lemma FullLengthWordNeverLeaves(b: Board, n: nat, w: seq<char>, wd: WordDraws)
    requires Square(b, n) && DrawsFit(n, wd)
    requires |w| == n && IsAlpha(w)
    ensures HandleWord(AsWritten, b, n, w, wd).board == None
  {
    var dec := CheckWord(b, n, w, wd.direction, wd.columnDirection);
    FullLengthNeverPlaced(b, n, w, dec.dir, wd.starts);
  }

  /** With the source's bound tests, a word as long as the board stalls the
      whole run: it spins at that word, or at an earlier one. */
  lemma {:induction false} FullLengthWordSpins(b: Board, n: nat, words: seq<seq<char>>, draws: seq<WordDraws>, j: nat)
    requires Square(b, n) && |draws| == |words|
    requires forall i :: 0 <= i < |draws| ==> DrawsFit(n, draws[i])
    requires j < |words| && |words[j]| == n && IsAlpha(words[j])
    ensures CheckWords(AsWritten, b, n, words, draws).Spinning?
    ensures CheckWords(AsWritten, b, n, words, draws).word <= j
    decreases |words|
  {
    assert DrawsFit(n, draws[0]);
    var res := HandleWord(AsWritten, b, n, words[0], draws[0]);
    if j == 0 {
      FullLengthWordNeverLeaves(b, n, words[0], draws[0]);
    } else if res.board.Some? {
      var rest := CheckWords(AsWritten, res.board.value, n, words[1..], draws[1..]);
      assert words[1..][j - 1] == words[j];
      FullLengthWordSpins(res.board.value, n, words[1..], draws[1..], j - 1);
      assert CheckWords(AsWritten, b, n, words, draws) == After(res.diagnostics, 1, rest);
    }
  }

  /** When every word is rejected the finished grid is the filler letters
      alone: each cell holds the letter drawn for it. */
  lemma AllRejectedGivesFillerOnly(rule: BoundRule, n: nat, words: seq<seq<char>>, draws: seq<WordDraws>, pick: (nat, nat) -> int)
    requires |draws| == |words|
    requires forall i :: 0 <= i < |draws| ==> DrawsFit(n, draws[i])
    requires forall r: nat, c: nat :: r < n && c < n ==> 65 <= pick(r, c) <= 90
    requires forall i :: 0 <= i < |words| ==> RejectionOf(n, words[i]).Some?
    ensures Generate(rule, n, words, draws, pick).Done?
    ensures |Generate(rule, n, words, draws, pick).diagnostics| == |words|
    ensures forall r, c :: 0 <= r < n && 0 <= c < n ==>
      Generate(rule, n, words, draws, pick).board[r][c] as int == pick(r, c)
  {
    RejectedWordsLeaveBoard(rule, NewBoard(n), n, words, draws);
  }

  /** A board of 3 x 3 cells that all hold 'X'. */
  function AllX(): (b: Board)
    ensures Square(b, 3)
  {
    seq(3, _ => seq(3, _ => 'X'))
  }

  /** The "does not fit" message does not stop the word: on a board with no
      blank left, "ab" is reported as not fitting, yet the first draw (0, 0)
      going down is admitted and "AB" overwrites two of the 'X's. */
  lemma NoSpaceWordStillPlaced()
    ensures CheckWord(AllX(), 3, "ab", 0, 0) == Place(Down, true)
    ensures PlaceWord(AsWritten, AllX(), 3, "ab", Down, [(0, 0)]).Some?
    ensures CheckWords(AsWritten, AllX(), 3, ["ab"], [WordDraws(0, 0, [(0, 0)])]).Done?
    ensures CheckWords(AsWritten, AllX(), 3, ["ab"], [WordDraws(0, 0, [(0, 0)])]).diagnostics ==
      [Diagnostic("ab", NoSpaceAvailable)]
  {
    var b := AllX();
    assert IsAlpha("ab");
    forall s, j | s in b && 0 <= j <= |s| - 2 ensures !BlankRunAt(s, j, 2) {
      assert s[j] == 'X';
    }
    forall c | 0 <= c < 3 ensures !HasBlankRun(Column(b, 3, c), 2) {
      forall j | 0 <= j <= 1 ensures !BlankRunAt(Column(b, 3, c), j, 2) {
        assert Column(b, 3, c)[j] == 'X';
      }
    }
    assert !RowsAvailable(b, 2);
    assert !ColumnsAvailable(b, 3, 2);
    UniformSpanAccepted(Span(b, 3, (0, 0), Down, 2), "ab");
  }
}

=== FILE: validation.dfy ===
/** Word validation and direction choice (`check_words` and `_blank_columns`).

  A word is rejected when it is longer than the board or not alphabetic;
  otherwise the board is scanned for a run of blanks as long as the word in
  some row and in some column, and the outcome of the two scans decides which
  direction draw is used. The random draws are parameters: `draw` is the
  0..2 draw every accepted word makes, `columnDraw` the 0..1 draw made when
  only columns have room.
 */
module Validation {
  import opened Options
  import opened Grid

  /** Positions `j .. j+k` of `s` exist and are all blank. */
  predicate BlankRunAt(s: seq<char>, j: int, k: nat) {
    0 <= j && j + k <= |s| && forall i :: j <= i < j + k ==> s[i] == Blank
  }

  /** Python's `"." * k in s`: `s` holds `k` consecutive blanks somewhere. */
  predicate HasBlankRun(s: seq<char>, k: nat) {
    exists j :: 0 <= j <= |s| - k && BlankRunAt(s, j, k)
  }

  /** Some row of the board holds a run of `k` blanks. */
  predicate RowsAvailable(b: Board, k: nat) {
    exists r :: 0 <= r < |b| && HasBlankRun(b[r], k)
  }

  /** Column `c` read from the top row down. */
  function Column(b: Board, n: nat, c: nat): (col: seq<char>)
    requires Square(b, n) && c < n
    ensures |col| == n
    ensures forall r :: 0 <= r < n ==> col[r] == b[r][c]
  {
    seq(n, r requires 0 <= r < n => b[r][c])
  }

  /** Some column of the board holds a run of `k` blanks. */
  predicate ColumnsAvailable(b: Board, n: nat, k: nat)
    requires Square(b, n)
  {
    exists c :: 0 <= c < n && HasBlankRun(Column(b, n, c), k)
  }

  /** The substring test `"." * k in s`, as one scan that tracks the
      length of the blank run ending at the current position. */
  method ContainsBlankRun(s: seq<char>, k: nat) returns (found: bool)
    ensures found <==> HasBlankRun(s, k)
  {
    if k == 0 {
      assert BlankRunAt(s, 0, 0);
      return true;
    }
    var run := 0;
    var i := 0;
    while i < |s|
      invariant 0 <= run <= i <= |s|
      invariant run < k
      invariant BlankRunAt(s, i - run, run)
      invariant i - run > 0 ==> s[i - run - 1] != Blank
      invariant forall j :: 0 <= j && j + k <= i ==> !BlankRunAt(s, j, k)
    {
      var blank := s[i] == Blank;
      if blank && run + 1 == k {
        assert BlankRunAt(s, i + 1 - k, k);
        return true;
      }
      forall j | 0 <= j && j + k == i + 1
        ensures !BlankRunAt(s, j, k)
      {
        if blank {
          assert s[i - run - 1] != Blank;
        } else {
          assert s[i] != Blank;
        }
      }
      run := if blank then run + 1 else 0;
      i := i + 1;
    }
    return false;
  }

  /** The row scan of `check_words`: any row holding `k` consecutive blanks. */
  method BlankRows(b: Board, k: nat) returns (found: bool)
    ensures found <==> RowsAvailable(b, k)
  {
    var r := 0;
    while r < |b|
      invariant 0 <= r <= |b|
      invariant forall i :: 0 <= i < r ==> !HasBlankRun(b[i], k)
    {
      found := ContainsBlankRun(b[r], k);
      if found {
        return;
      }
      r := r + 1;
    }
    return false;
  }

  /** `_blank_columns`: collect every column as a string, then test each one
      for `k` consecutive blanks. */
  method BlankColumns(b: Board, n: nat, k: nat) returns (found: bool)
    requires Square(b, n)
    ensures found <==> ColumnsAvailable(b, n, k)
  {
    var cols: seq<seq<char>> := [];
    var col := 0;
    while col < n
      invariant 0 <= col <= n && |cols| == col
      invariant forall j :: 0 <= j < col ==> cols[j] == Column(b, n, j)
    {
      var column: seq<char> := [];
      var row := 0;
      while row < n
        invariant 0 <= row <= n
        invariant column == Column(b, n, col)[..row]
      {
        column := column + [b[row][col]];
        row := row + 1;
      }
      cols := cols + [column];
      col := col + 1;
    }
    found := BlankRows(cols, k);
    if found {
      var j :| 0 <= j < |cols| && HasBlankRun(cols[j], k);
      assert HasBlankRun(Column(b, n, j), k);
    }
  }

  datatype Rejection = TooLong | NotAlphabetic

  /** The two checks that reject a word outright, in the source's order:
      longer than the board, then not alphabetic (the empty word included). */
  function RejectionOf(n: nat, w: seq<char>): (r: Option<Rejection>)
    ensures r == Some(TooLong) <==> |w| > n
    ensures r == Some(NotAlphabetic) <==> |w| <= n && !IsAlpha(w)
    ensures r == None <==> |w| <= n && IsAlpha(w)
  {
    if |w| > n then Some(TooLong)
    else if !IsAlpha(w) then Some(NotAlphabetic)
    else None
  }

  /** What `check_words` does with one word: reject it, or hand it to the
      placer with a direction. `noSpace` records that the "does not fit"
      message was written; the word is placed all the same. */
  datatype Decision = Reject(reason: Rejection) | Place(dir: Direction, noSpace: bool)

  function CheckWord(b: Board, n: nat, w: seq<char>, draw: int, columnDraw: int): (d: Decision)
    requires Square(b, n)
    requires 0 <= draw <= 2 && 0 <= columnDraw <= 1
    ensures d == Reject(TooLong) <==> |w| > n
    ensures d == Reject(NotAlphabetic) <==> |w| <= n && !IsAlpha(w)
    ensures d.Place? <==> |w| <= n && IsAlpha(w)
    ensures d.Place? ==>
      (d.noSpace <==> !RowsAvailable(b, |w|) && !ColumnsAvailable(b, n, |w|))
    ensures d.Place? && RowsAvailable(b, |w|) && !ColumnsAvailable(b, n, |w|) ==>
      d.dir == LeftToRight
    ensures d.Place? && !RowsAvailable(b, |w|) && ColumnsAvailable(b, n, |w|) ==>
      d.dir != LeftToRight && d.dir == DirectionOf(columnDraw)
    ensures d.Place? && RowsAvailable(b, |w|) == ColumnsAvailable(b, n, |w|) ==>
      d.dir == DirectionOf(draw)
  {
    match RejectionOf(n, w)
    case Some(why) => Reject(why)
    case None =>
      var rows := RowsAvailable(b, |w|);
      var cols := ColumnsAvailable(b, n, |w|);
      if !rows && !cols then Place(DirectionOf(draw), true)
      else if !rows && cols then Place(DirectionOf(columnDraw), false)
      else if rows && !cols then Place(LeftToRight, false)
      else Place(DirectionOf(draw), false)
  }

  /** A rejection depends on the word and the board size only, so checking a
      rejected word again, on any board of that size, rejects it again. */
  lemma RejectionIgnoresBoard(b: Board, b': Board, n: nat, w: seq<char>, draw: int, columnDraw: int)
    requires Square(b, n) && Square(b', n)
    requires 0 <= draw <= 2 && 0 <= columnDraw <= 1
    requires CheckWord(b, n, w, draw, columnDraw).Reject?
    ensures CheckWord(b', n, w, draw, columnDraw) == CheckWord(b, n, w, draw, columnDraw)
  {
  }

  /** A blank board has room for a run of up to `n` blanks in every row and
      every column. */
  lemma FreshBoardHasSpace(n: nat, k: nat)
    requires 1 <= n && k <= n
    ensures RowsAvailable(NewBoard(n), k)
    ensures ColumnsAvailable(NewBoard(n), n, k)
  {
    var b := NewBoard(n);
    assert BlankRunAt(b[0], 0, k);
    assert BlankRunAt(Column(b, n, 0), 0, k);
  }

  /** On a blank board every acceptable word keeps the 0..2 draw and no
      "does not fit" message is written. */
  lemma FreshBoardKeepsDraw(n: nat, w: seq<char>, draw: int, columnDraw: int)
    requires |w| <= n && IsAlpha(w)
    requires 0 <= draw <= 2 && 0 <= columnDraw <= 1
    ensures CheckWord(NewBoard(n), n, w, draw, columnDraw) == Place(DirectionOf(draw), false)
  {
    FreshBoardHasSpace(n, |w|);
  }
}
